=== FILE: README.md ===
# Chess clock engine, modelled in Dafny

This project models the core of the ChessClock iOS app: the `GameViewModel`
state machine behind the two countdown clocks, the `TimeControlPreset` value
type, and the control logic of `ContentView` that decides which taps, buttons
and preset changes reach the engine, plus the clock-face and move-counter
text.

- `wrappers.dfy` (`Wrappers`): `Option`, with `GetOr` for Swift's `??`.
- `preset.dfy` (`TimeControl`): a preset, `initialSeconds = minutes * 60`,
  and the same quantities in tenths of a second.
- `engine.dfy` (`ClockEngine`): the engine state, the preset table,
  `isGameInProgress`, and the commands `switchToPlayer`, `pauseGame`,
  `resetGame`, `endGame` and the timer tick. Each command is a pure function
  returning the next state and the feedback cue it plays.
- `timeline.dfy` (`Timeline`): runs of commands, the time accounting over a
  run, the invariant over a run, feedback over a run, and ticks after the
  game ends.
- `controls.dfy` (`Controls`): the screen's guards and actions as one step
  function over UI events, the invariant of every state reachable from
  launch, and the winner shown in the game-over alert.
- `display.dfy` (`TimeDisplay`): `timeString`, `moveCountText` and the
  counter's visibility rule, with a parser that reads a clock face back.

Modelling choices:

- Time is integer tenths of a second. A clock starts at `minutes * 600`,
  an increment is `increment * 10`, and each timer firing subtracts 1.
  Because clocks move in whole tenths, the tick that ends a game leaves the
  clock at exactly 0.
- The Foundation `Timer` is the field `timerOwner`. It names the player
  whose clock the timer's closure decrements, or is None when no timer is
  scheduled. A `Tick` acts on `timerOwner`, not on `activePlayer`, because
  the closure captures the `player` argument. So there is at most one timer
  by construction.
- Players are the datatype `One | Two`. The source uses `Int` and treats
  every value other than 1 as player two. The screen only ever passes 1 or 2.
- The preset index is a subset type `0 <= i < 13`. That is the range the
  picker offers, so `currentPreset` has no out-of-range case.
- Audio is the abstract cue `Feedback(p)`. It is None when sound is off.
- SwiftUI alerts are modal. While the game-over alert or the
  preset-change confirmation is shown, only that alert's buttons act. The
  timer and the app going to the background still act.
- The reset button and its confirmation alert are modelled as one event.
  So is the settings sheet's toggle together with its gear button.
- `handlePlayerSwitch` makes the same `switchToPlayer` call in both
  branches. Only the mask animation differs, so it is modelled as that call.
- The screen step `StepWith` takes the play/pause button's visibility rule.
  `UiStep` is the screen as written, where the button shows only while
  `isGameInProgress`. `FixedUiStep` is the screen with the corrected rule
  from the finding below. The reachable-state invariant is proved for both.

The model follows the code, including these quirks:

- `endGame` does not clear `activePlayer`, and the engine stores no winner.
  The winner is computed by the alert from `player1Time`.
- `switchToPlayer` has no guard of its own. Switching to the running player
  credits them an increment and a move (`SwitchToSelfCredits`). The
  guards live in the view.
- Pausing always plays player one's feedback channel.
- "Resume" is not a separate command. Play calls
  `switchToPlayer(lastActivePlayer ?? 1)`, which credits nothing because no
  player is active while paused (`PauseThenResume`).

## Model

| member | source | states |
|---|---|---|
| TimeControl.InitialSecondsIgnoresNameAndIncrement | ChessClock/TimeControlPreset.swift:8-15 | presets with the same minutes have the same starting time, whatever their name or increment |
| TimeControl.InitialSecondsWholeMinutes | ChessClock/TimeControlPreset.swift:13-15 | for minutes >= 0 the starting time is non-negative, a multiple of 60, and divides back to the minutes |
| TimeControl.InitialSecondsStrictlyIncreasing | ChessClock/TimeControlPreset.swift:14 | more minutes give strictly more starting time |
| ClockEngine.Feedback | ChessClock/GameViewModel.swift:147-157 | a cue is played exactly when sound is enabled, and it is on the requested player's channel |
| ClockEngine.Credit | ChessClock/GameViewModel.swift:76-85 | the finishing player gains one increment and one move; the other player's clock and counter are unchanged |
| ClockEngine.SwitchToPlayer | ChessClock/GameViewModel.swift:73-109 | afterwards p is active and last active, and the only timer is p's. With nobody active, no clock or counter moves. Otherwise the previously active player alone is credited one increment and one move. The cue is p's |
| ClockEngine.EndGame | ChessClock/GameViewModel.swift:141-145 | the timer stops and the game is over; the active and last-active players, clocks, counters, preset and sound setting are kept |
| ClockEngine.Tick | ChessClock/GameViewModel.swift:93-106 | only the timer owner's clock loses one tenth. The game ends exactly when that clock was at most one tenth; otherwise the timer stays with the same player. With no timer the state is unchanged. The active player, counters, preset and sound setting are never changed |
| ClockEngine.PauseGame | ChessClock/GameViewModel.swift:111-122 | the active player is remembered as the last active one; the timer and active player are cleared; clocks, counters, game-over flag, preset and sound setting are unchanged; the cue is player one's |
| ClockEngine.ResetGame | ChessClock/GameViewModel.swift:124-139 | both clocks hold the current preset's starting time, both counters are 0, there is no active or last-active player, no timer, and the game is not over |
| ClockEngine.SelectPreset | ChessClock/ContentView.swift:162-171 | choosing a preset sets the index and resets under it: both clocks at that preset's time, both counters 0, nobody active or last active, no timer, not over, sound setting kept, so no game is in progress |
| ClockEngine.InitIsConsistent | ChessClock/GameViewModel.swift:15-28 | the default index 9 is "15 min \| 5 sec", whose 900 seconds match both initial clocks; the fresh engine is not in progress, has nobody active, is not over, and already equals its own reset |
| ClockEngine.ResetIdempotent | ChessClock/GameViewModel.swift:124-139 | resetting twice equals resetting once, and a reset game is not in progress |
| ClockEngine.PauseThenResume | ChessClock/GameViewModel.swift:73-122 | pause followed by `switchToPlayer(lastActivePlayer ?? 1)` restores the same active player and timer, with clocks and counters as before the pause |
| ClockEngine.SwitchToSelfCredits | ChessClock/GameViewModel.swift:77-85 | switching to the player already active credits that player an increment and a move |
| ClockEngine.TickEndsGameAtZero | ChessClock/GameViewModel.swift:95-105 | the tick taking a clock from one tenth ends the game at exactly 0, stops the timer, and keeps the active player |
| ClockEngine.StartedGameNotInProgress | ChessClock/GameViewModel.swift:68-71 | right after the first switch a timer runs while no game is in progress; the first tick puts the game in progress |
| Timeline.ApplyAccounted | ChessClock/GameViewModel.swift:79-101 | each command keeps every clock equal to start + increment x moves - ticks that player's timer fired |
| Timeline.RunAccounted | ChessClock/GameViewModel.swift:79-130 | that per-player accounting holds after any run of commands; resets and preset selections start the count again |
| Timeline.TimeIsConserved | ChessClock/GameViewModel.swift:127-130 | from launch, clock1 + clock2 = 2 x start + increment x (moves1 + moves2) - ticks since the last reset |
| Timeline.ApplyKeepsInv | ChessClock/GameViewModel.swift:88-145 | every command keeps the invariant: a timer runs only for the active player, the active player is also the last active one, and an active player without a timer means the game is over |
| Timeline.RunKeepsInv | ChessClock/GameViewModel.swift:88-145 | that invariant holds after any run |
| Timeline.MutedRunIsSilent | ChessClock/GameViewModel.swift:147-148 | with sound disabled no run plays any cue |
| Timeline.CueOfCommand | ChessClock/GameViewModel.swift:74 | with sound on, a switch plays its target's cue once, a pause plays player one's cue once, and the other commands play none |
| Timeline.TicksWithoutTimerAreInert | ChessClock/GameViewModel.swift:141-145 | with no timer, any number of ticks leaves the state unchanged and burns no time |
| Timeline.GameOverFreezesClocks | ChessClock/GameViewModel.swift:95-105 | after the tick that ends the game, the active player is kept, and no number of further ticks changes the state |
| Controls.HandlePlayerSwitch | ChessClock/ContentView.swift:264-280 | a tap handled for p makes p active with its timer, and plays p's cue |
| Controls.PresetsWellFormed | ChessClock/GameViewModel.swift:5-19 | every built-in preset starts the clocks above zero and has a non-negative increment |
| Controls.UiStepKeepsInv | ChessClock/ContentView.swift:57-252 | every screen event, under either play/pause rule, keeps the reachable-state invariant. Before game over both clocks are positive. A running timer means the game is not over. At game over exactly one clock is 0 and the other is positive. A pending preset change means nobody is active |
| Controls.UiRunKeepsInv | ChessClock/ContentView.swift:57-252 | that invariant holds after any run of screen events, under either play/pause rule |
| Controls.ReachableInv | ChessClock/ContentView.swift:12 | every state reachable from launch satisfies it, as written and with the corrected button |
| Controls.TimerRunsForActivePlayer | ChessClock/GameViewModel.swift:88-108 | in a reachable state a timer runs exactly when a player is active and the game is not over, and it is that player's timer |
| Controls.ClockEnabledIff | ChessClock/ContentView.swift:81-82 | a clock accepts a tap exactly when the game is not over and either its target's opponent runs or no game has started |
| Controls.AcceptedTapSwitches | ChessClock/ContentView.swift:57-59 | a tap the clock accepts, with no alert up, makes exactly the engine call `switchToPlayer` for its target: player one for the top clock, player two for the bottom |
| Controls.TapHandsTurnOver | ChessClock/ContentView.swift:178-202 | while q runs, a tap either changes nothing or hands the turn and the timer to the other player, crediting q one increment and one move and leaving the other player's clock and counter alone. The clock that acts is the one whose target is q's opponent |
| Controls.PausedClocksIgnoreTaps | ChessClock/ContentView.swift:201-202 | while paused, both clocks are disabled and taps change nothing |
| Controls.OnlyPlayResumes | ChessClock/ContentView.swift:136-143 | while paused, no screen event other than play makes a player active, whichever play/pause rule applies |
| Controls.PlayPausePauses | ChessClock/ContentView.swift:136-143 | where the source shows the button, that is while the game is in progress, it pauses a running clock, remembering the player and keeping clocks and counters |
| Controls.BackgroundThenPlay | ChessClock/ContentView.swift:214-218 | going to the background while a clock runs stops its timer; play then restores the same player, timer, clocks and counters. As written this needs the game in progress, with the corrected button it always holds |
| Controls.TimeoutNamesOpponent | ChessClock/ContentView.swift:225-228 | when p's clock runs out, the game ends with p's clock at 0 and the alert names the other player |
| Controls.WinnerHasTimeLeft | ChessClock/ContentView.swift:228 | in a reachable finished game the player the alert names still has time left, and the loser's clock is 0 |
| Controls.CounterShowsAfterHandOver | ChessClock/ContentView.swift:305-308 | with the counter enabled, the player who just handed the turn over by a tap has their move counter shown, since the hand-over counts their move; after a reset no counter shows |
| Controls.PresetFixedWhileClockRuns | ChessClock/ContentView.swift:105 | in a reachable state no event changes the preset while a clock runs |
| Controls.PickThenCancel | ChessClock/ContentView.swift:162-171 | picking a preset during a game and then cancelling leaves the screen exactly as it was |
| Controls.PickThenConfirm | ChessClock/ContentView.swift:242-252 | with no game in progress a pick selects and resets at once; during a game the pick changes nothing until Change, which then selects and resets |
| Controls.PresetChangesOnlyWithReset | ChessClock/ContentView.swift:162-171 | no screen event changes the preset without resetting the game under the new preset |
| Controls.PausedGameStuckAsWritten | ChessClock/ContentView.swift:136-143 | as written, after a tap and then going to the background before the first tick, the game is paused with no visible play button: play, both clocks and the reset button all do nothing |
| Controls.PlayControlAlwaysReachable | ChessClock/ContentView.swift:136-143 | with the corrected button, a running or paused game shows the control. Play then resumes the last active player with clocks and counters kept |
| TimeDisplay.NatToString | ChessClock/ContentView.swift:320 | `%d` of a non-negative number is a non-empty digit string with no leading zero |
| TimeDisplay.ParseNatToString | ChessClock/ContentView.swift:320 | reading the digits of `%d` back gives the number |
| TimeDisplay.PadTwoSeconds | ChessClock/ContentView.swift:319-320 | `%02d` of 0 to 59 is exactly two digits, the first below 6, reading back as the value |
| TimeDisplay.TimeStringRoundTrip | ChessClock/ContentView.swift:317-321 | for a clock >= 0 the face is the minutes, ":", then two digits 00-59. Tenths are truncated, and parsing the face gives back the whole seconds |
| TimeDisplay.SlightlyNegativeShowsZero | ChessClock/ContentView.swift:318 | a clock less than a second below zero reads 0:00, because `Int(_:)` truncates toward zero |
| TimeDisplay.MoveCountTextShape | ChessClock/ContentView.swift:313-315 | the caption is "1 Move" exactly for one move. Otherwise it is the count followed by " Moves", and the count reads back from it |

## Left out

- Audio session setup and the audio players: foreign I/O. Only the
  abstract cue `Feedback(p)` is kept.
- SwiftUI layout, animations, `maskOpacity`, the mask frames and geometry:
  presentation only.
- Real timer scheduling, run-loop delivery and the `[weak self]` capture:
  replaced by the explicit `TimerFired` / `Tick` event. Real time and
  concurrency are not modelled.
- Floating-point drift from repeated `-= 0.1`: clocks are exact integer
  tenths. With the source's Doubles, the 2, 3, 5, 30 and 60 minute presets
  run one extra tick and end near -0.1 s. The other presets end a hair below
  zero. `String(format:)` is modelled only for the `%d` and `%02d` shapes
  used.
- ClockEngine.IsGameInProgress: in integer tenths an increment can refund
  the elapsed ticks exactly (under "1 min | 1 sec", ten ticks then a
  hand-over), so "in progress" can be false in mid-game while a clock runs.
  The play/pause, reset and preset-pick gating that reads it then behaves
  as at the start of a game. With the source's Doubles this never happens.
- ClockEngine.TickEndsGameAtZero: ending at exactly 0 holds for integer
  tenths only; with Doubles the losing clock ends at or slightly below 0.
- Controls.TimeoutNamesOpponent: "the loser's clock is 0" holds for integer
  tenths only. The winner named is still the other player.
- Controls.WinnerHasTimeLeft: "the loser's clock is 0" holds for integer
  tenths only. With Doubles it is at or below 0, which gives the same winner.
- The idle-timer toggling on `isGameInProgress`: an operating-system side
  effect.
- The settings and time-controls sheets: lists and toggles only. Their
  effects are the `SetSound`, `SetMoveCounter` and `PickPreset` events.
  `ColorSchemePreference` is a lookup table.

## Findings

| source | as written | input that shows it | evidently intended | confidence | as-written member | corrected member |
|---|---|---|---|---|---|---|
| ChessClock/ContentView.swift:136 | the play/pause button shows only while `isGameInProgress`, that is while a clock differs from its starting time | tap player one's clock (player two starts), then the app goes to the background before the first 0.1 s tick. The game is paused with both clocks at the start value. The play button is hidden, both clocks are disabled while paused, and the reset button is hidden too. Only a preset change, which resets, leaves this state. | the button shows once a game has started (`isGameInProgress` or a last active player), so a paused game can always be resumed and a running one paused | low, not executed | Controls.PausedGameStuckAsWritten | Controls.PlayControlAlwaysReachable |

=== FILE: controls.dfy ===
/** The screen's control logic around the engine: which clock taps are
    accepted, the play/pause button, the reset button, the preset picker
    with its change confirmation, the settings toggles, the background
    rule and the game-over alert with its winner. SwiftUI alerts are modal:
    while one is shown only its own buttons act, besides the timer and the
    app going to the background. */
module Controls {
  import opened Wrappers
  import opened TimeControl
  import opened ClockEngine
  import TimeDisplay

  datatype Ui = Ui(game: State, pending: Option<PresetIndex>, showMoveCounter: bool)

  datatype UiEvent =
    | TapTop              // the rotated clock showing player two's time
    | TapBottom           // the clock showing player one's time
    | PlayPause
    | ResetConfirmed      // the reset button, then "Reset" in its alert
    | PickPreset(index: PresetIndex)
    | ConfirmChange
    | CancelChange
    | EnterBackground
    | NewGame             // the game-over alert's button
    | TimerFired
    | SetSound(on: bool)
    | SetMoveCounter(on: bool)

  datatype UiEffect = UiEffect(next: Ui, cue: Option<Player>)

  const UiInit: Ui := Ui(Init, None, true)

  predicate Paused(s: State)
  {
    s.active.None? && s.lastActive.Some?
  }

  /** The player a clock's tap switches to: tapping a player's own clock
      ends their move, so the top clock (player two's) switches to player
      one and the bottom clock to player two. */
  function TapTarget(e: UiEvent): Player
    requires e.TapTop? || e.TapBottom?
  {
    if e.TapTop? then One else Two
  }

  /** A clock is disabled when the game is over, while its target already
      runs, or while the game is paused. */
  predicate ClockEnabled(s: State, target: Player)
  {
    !s.gameOver && s.active != Some(target) && !Paused(s)
  }

  /** Both branches of the tap handler make the same engine call; they only
      differ in the mask animation. */
  function HandlePlayerSwitch(s: State, p: Player): (r: Effect)
    ensures r.next.active == Some(p) && r.next.timerOwner == Some(p)
    ensures r.cue == Feedback(s, p)
  {
    SwitchToPlayer(s, p)
  }

  /** The tap action itself switches only when nobody runs or the target's
      opponent runs. */
  function ClockTap(s: State, target: Player): Effect
  {
    if s.active.None? || s.active == Some(Other(target)) then HandlePlayerSwitch(s, target)
    else Effect(s, None)
  }

  /** Which visibility rule the play/pause button follows. */
  datatype PlayRule = AsWritten | Corrected

  /** The play/pause button as written: shown only while a clock differs
      from its starting value. */
  predicate PlayControlVisibleAsWritten(s: State)
  {
    IsGameInProgress(s)
  }

  /** The play/pause button as evidently intended: shown once a game has
      started, that is while in progress or after any switch since the last
      reset. */
  predicate PlayControlVisible(s: State)
  {
    IsGameInProgress(s) || s.lastActive.Some?
  }

  predicate PlayControlShown(s: State, rule: PlayRule)
  {
    if rule == AsWritten then PlayControlVisibleAsWritten(s) else PlayControlVisible(s)
  }

  /** Play resumes the last active player (player one if none); pause
      pauses. */
  function PlayPauseAction(s: State): Effect
  {
    if s.active.None? then HandlePlayerSwitch(s, s.lastActive.GetOr(One)) else PauseGame(s)
  }

  predicate ResetControlVisible(s: State)
  {
    IsGameInProgress(s) && s.active.None?
  }

  /** The preset picker button and the settings button are usable only
      while no clock is active. */
  predicate PickerEnabled(s: State)
  {
    s.active.None?
  }

  predicate AlertShown(u: Ui)
  {
    u.game.gameOver || u.pending.Some?
  }

  /** The player named in the game-over alert. */
  function Winner(s: State): Player
  {
    if s.p1Time <= 0 then Two else One
  }

  function Same(u: Ui): UiEffect
  {
    UiEffect(u, None)
  }

  function WithGame(u: Ui, e: Effect): UiEffect
  {
    UiEffect(u.(game := e.next), e.cue)
  }

  /** One screen event, with the play/pause button following `rule`. */
  function StepWith(u: Ui, e: UiEvent, rule: PlayRule): UiEffect
  {
    var s := u.game;
    match e
    case TimerFired => Same(u.(game := Tick(s)))
    case EnterBackground =>
      if s.active.Some? then WithGame(u, PauseGame(s)) else Same(u)
    case NewGame =>
      if s.gameOver then Same(u.(game := ResetGame(s))) else Same(u)
    case ConfirmChange =>
      (match u.pending
       case Some(i) => Same(Ui(SelectPreset(s, i), None, u.showMoveCounter))
       case None => Same(u))
    case CancelChange => Same(u.(pending := None))
    case _ =>
      if AlertShown(u) then Same(u)
      else match e
        case TapTop =>
          if ClockEnabled(s, One) then WithGame(u, ClockTap(s, One)) else Same(u)
        case TapBottom =>
          if ClockEnabled(s, Two) then WithGame(u, ClockTap(s, Two)) else Same(u)
        case PlayPause =>
          if PlayControlShown(s, rule) then WithGame(u, PlayPauseAction(s)) else Same(u)
        case ResetConfirmed =>
          if ResetControlVisible(s) then Same(u.(game := ResetGame(s))) else Same(u)
        case PickPreset(i) =>
          if !PickerEnabled(s) then Same(u)
          else if IsGameInProgress(s) then Same(u.(pending := Some(i)))
          else Same(u.(game := SelectPreset(s, i)))
        case SetSound(on) =>
          if PickerEnabled(s) then Same(u.(game := s.(soundEnabled := on))) else Same(u)
        case SetMoveCounter(on) =>
          if PickerEnabled(s) then Same(u.(showMoveCounter := on)) else Same(u)
  }

  /** The screen as written. */
  function UiStep(u: Ui, e: UiEvent): UiEffect
  {
    StepWith(u, e, AsWritten)
  }

  /** The screen with the corrected play/pause button. */
  function FixedUiStep(u: Ui, e: UiEvent): UiEffect
  {
    StepWith(u, e, Corrected)
  }

  function RunWith(u: Ui, es: seq<UiEvent>, rule: PlayRule): Ui
    decreases |es|
  {
    if |es| == 0 then u else RunWith(StepWith(u, es[0], rule).next, es[1..], rule)
  }

  function UiRun(u: Ui, es: seq<UiEvent>): Ui
  {
    RunWith(u, es, AsWritten)
  }

  // ---------------------------------------------------------------------
  // Invariant of every screen state reachable from launch

  /** Every preset starts each clock above zero and has no negative
      increment. */
  lemma PresetsWellFormed(i: PresetIndex)
    ensures InitialTenths(Presets[i]) > 0
    ensures IncrementTenths(Presets[i]) >= 0
  {
  }

  predicate UiInv(u: Ui)
  {
    var s := u.game;
    && Inv(s)
    && s.p1Turns >= 0 && s.p2Turns >= 0
    && (!s.gameOver ==> s.p1Time > 0 && s.p2Time > 0)
    && (s.timerOwner.Some? ==> !s.gameOver)
    && (s.gameOver ==> (s.p1Time == 0 && s.p2Time > 0) || (s.p2Time == 0 && s.p1Time > 0))
    && (u.pending.Some? ==> s.active.None? && !s.gameOver)
  }

  lemma UiStepKeepsInv(u: Ui, e: UiEvent, rule: PlayRule)
    requires UiInv(u)
    ensures UiInv(StepWith(u, e, rule).next)
  {
    PresetsWellFormed(u.game.presetIndex);
    match e
    case PickPreset(i) => PresetsWellFormed(i);
    case ConfirmChange =>
      if u.pending.Some? {
        PresetsWellFormed(u.pending.value);
      }
    case _ =>
  }

  /** Every screen state reachable from launch satisfies the invariant,
      under either play/pause rule. */
  lemma {:induction false} UiRunKeepsInv(u: Ui, es: seq<UiEvent>, rule: PlayRule)
    requires UiInv(u)
    ensures UiInv(RunWith(u, es, rule))
    decreases |es|
  {
    if |es| > 0 {
      UiStepKeepsInv(u, es[0], rule);
      UiRunKeepsInv(StepWith(u, es[0], rule).next, es[1..], rule);
    }
  }

  lemma ReachableInv(es: seq<UiEvent>, rule: PlayRule)
    ensures UiInv(RunWith(UiInit, es, rule))
  {
    UiRunKeepsInv(UiInit, es, rule);
  }

  /** In a reachable state a timer runs exactly when a player is active and
      the game is not over, and then it is that player's timer. */
  lemma TimerRunsForActivePlayer(u: Ui)
    requires UiInv(u)
    ensures u.game.timerOwner.Some? <==> u.game.active.Some? && !u.game.gameOver
    ensures u.game.timerOwner.Some? ==> u.game.timerOwner == u.game.active
  {
  }

  // ---------------------------------------------------------------------
  // Clock taps

  /** A clock accepts a tap exactly when the game is not over and either
      its target's opponent runs or no game has started yet. */
  lemma ClockEnabledIff(s: State, target: Player)
    ensures ClockEnabled(s, target) <==>
      !s.gameOver && (s.active == Some(Other(target)) || (s.active.None? && s.lastActive.None?))
  {
    if s.active.Some? {
      assert s.active.value == target || s.active.value == Other(target);
    }
  }

  /** An accepted tap switches to its clock's target: the top clock to
      player one, the bottom clock to player two. */
  lemma AcceptedTapSwitches(u: Ui, e: UiEvent)
    requires e.TapTop? || e.TapBottom?
    requires !AlertShown(u) && ClockEnabled(u.game, TapTarget(e))
    ensures UiStep(u, e) == WithGame(u, SwitchToPlayer(u.game, TapTarget(e)))
    ensures UiStep(u, e).next.game.active == Some(TapTarget(e))
  {
  }

  /** While q runs, a tap either changes nothing or hands the turn and the
      timer to the other player, crediting q one increment and one move. */
  lemma TapHandsTurnOver(u: Ui, e: UiEvent, q: Player)
    requires e.TapTop? || e.TapBottom?
    requires u.game.active == Some(q)
    ensures var r := UiStep(u, e).next.game;
      || r == u.game
      || (&& r.active == Some(Other(q)) && r.timerOwner == Some(Other(q))
          && Clock(r, q) == Clock(u.game, q) + IncrementTenths(CurrentPreset(u.game))
          && Turns(r, q) == Turns(u.game, q) + 1
          && Clock(r, Other(q)) == Clock(u.game, Other(q))
          && Turns(r, Other(q)) == Turns(u.game, Other(q)))
    ensures UiStep(u, e).next.game != u.game ==> TapTarget(e) == Other(q)
  {
  }

  /** While paused neither clock accepts a tap. */
  lemma PausedClocksIgnoreTaps(u: Ui, e: UiEvent)
    requires e.TapTop? || e.TapBottom?
    requires Paused(u.game)
    ensures !ClockEnabled(u.game, One) && !ClockEnabled(u.game, Two)
    ensures UiStep(u, e) == Same(u)
  {
  }

  /** While paused, no screen event other than play makes a player active,
      under either play/pause rule. */
  lemma OnlyPlayResumes(u: Ui, e: UiEvent, rule: PlayRule)
    requires UiInv(u) && Paused(u.game) && e != PlayPause
    ensures StepWith(u, e, rule).next.game.active.None?
  {
  }

  // ---------------------------------------------------------------------
  // Play/pause, background and game over

  /** The button, where the source shows it, pauses a running clock,
      keeping both clocks and counters. */
  lemma PlayPausePauses(u: Ui)
    requires !AlertShown(u) && u.game.active.Some? && PlayControlVisibleAsWritten(u.game)
    ensures var r := UiStep(u, PlayPause).next.game;
      && r.active.None? && r.timerOwner.None? && r.lastActive == u.game.active
      && r.p1Time == u.game.p1Time && r.p2Time == u.game.p2Time
      && r.p1Turns == u.game.p1Turns && r.p2Turns == u.game.p2Turns
  {
  }

  /** Going to the background while a clock runs stops its timer, and
      pressing play then restores the same player, timer, clocks and
      counters. As written this needs the game to be in progress, since
      otherwise play is hidden; with the corrected button it always works. */
  lemma BackgroundThenPlay(u: Ui, rule: PlayRule)
    requires UiInv(u) && !u.game.gameOver && u.pending.None? && u.game.active.Some?
    requires rule == Corrected || IsGameInProgress(u.game)
    ensures var b := StepWith(u, EnterBackground, rule).next;
      var r := StepWith(b, PlayPause, rule).next.game;
      && b.game.timerOwner.None? && b.game.active.None?
      && r.active == u.game.active && r.timerOwner == u.game.timerOwner
      && r.p1Time == u.game.p1Time && r.p2Time == u.game.p2Time
      && r.p1Turns == u.game.p1Turns && r.p2Turns == u.game.p2Turns
  {
  }

  /** The tick that runs a clock out ends the game, and the alert names the
      other player. */
  lemma TimeoutNamesOpponent(u: Ui, p: Player)
    requires UiInv(u)
    requires u.game.timerOwner == Some(p) && Clock(u.game, p) == 1
    ensures var r := UiStep(u, TimerFired).next.game;
      r.gameOver && Winner(r) == Other(p) && Clock(r, p) == 0
  {
  }

  /** In any reachable finished game the named winner is the player whose
      clock is still above zero: player two exactly when player one's clock
      is at zero or below. */
  lemma WinnerHasTimeLeft(u: Ui)
    requires UiInv(u) && u.game.gameOver
    ensures Clock(u.game, Winner(u.game)) > 0
    ensures Clock(u.game, Other(Winner(u.game))) == 0
  {
  }

  /** With the counter enabled, the player who just handed the turn over
      by a tap has their move counter shown; after a reset no counter
      shows. */
  lemma CounterShowsAfterHandOver(u: Ui, e: UiEvent, q: Player)
    requires UiInv(u) && u.showMoveCounter
    requires e.TapTop? || e.TapBottom?
    requires u.game.active == Some(q) && UiStep(u, e).next.game != u.game
    ensures TimeDisplay.MoveCounterVisible(UiStep(u, e).next.showMoveCounter, Turns(UiStep(u, e).next.game, q))
    ensures !TimeDisplay.MoveCounterVisible(u.showMoveCounter, Turns(ResetGame(u.game), q))
  {
    TapHandsTurnOver(u, e, q);
  }

  // ---------------------------------------------------------------------
  // Preset changes

  /** In a reachable state no event changes the preset while a clock runs:
      the picker is locked then, and no confirmation can be pending. */
  lemma PresetFixedWhileClockRuns(u: Ui, e: UiEvent)
    requires UiInv(u) && u.game.timerOwner.Some?
    ensures UiStep(u, e).next.game.presetIndex == u.game.presetIndex
  {
  }

  /** Picking a preset during a game and then cancelling leaves the screen
      exactly as it was. */
  lemma PickThenCancel(u: Ui, i: PresetIndex)
    requires !AlertShown(u) && PickerEnabled(u.game) && IsGameInProgress(u.game)
    ensures UiStep(UiStep(u, PickPreset(i)).next, CancelChange).next == u
  {
  }

  /** Picking a preset ends in the same game either way: directly when no
      game is in progress, and after confirming when one is. */
  lemma PickThenConfirm(u: Ui, i: PresetIndex)
    requires !AlertShown(u) && PickerEnabled(u.game)
    ensures !IsGameInProgress(u.game) ==>
      UiStep(u, PickPreset(i)).next.game == SelectPreset(u.game, i)
    ensures IsGameInProgress(u.game) ==>
      && UiStep(u, PickPreset(i)).next.game == u.game
      && UiStep(UiStep(u, PickPreset(i)).next, ConfirmChange).next.game == SelectPreset(u.game, i)
  {
  }

  /** The preset never changes without the game being reset under it. */
  lemma PresetChangesOnlyWithReset(u: Ui, e: UiEvent)
    ensures var r := UiStep(u, e).next.game;
      r.presetIndex != u.game.presetIndex ==> r == SelectPreset(u.game, r.presetIndex)
  {
  }

  // ---------------------------------------------------------------------
  // The play/pause button, as written and as intended

  /** As written, a game paused before any clock moved cannot be resumed:
      tap player one's clock to start player two, and the app goes to the
      background before the first tick. Both clocks still read the starting
      time, so the play button is hidden, and both clocks ignore taps while
      paused; so does the reset button. */
  lemma PausedGameStuckAsWritten()
    ensures var u := UiRun(UiInit, [TapBottom, EnterBackground]);
      && Paused(u.game)
      && !AlertShown(u)
      && !PlayControlVisibleAsWritten(u.game)
      && UiStep(u, PlayPause) == Same(u)
      && !ClockEnabled(u.game, One) && !ClockEnabled(u.game, Two)
      && !ResetControlVisible(u.game)
  {
    var u1 := UiStep(UiInit, TapBottom).next;
    assert u1.game.active == Some(Two);
    assert UiRun(UiInit, [TapBottom, EnterBackground]) == UiStep(u1, EnterBackground).next;
  }

  /** With the corrected button, a clock that runs can always be paused and
      a paused game can always be resumed, restoring the last active player
      without crediting anyone. */
  lemma PlayControlAlwaysReachable(u: Ui)
    requires UiInv(u) && !AlertShown(u)
    ensures u.game.active.Some? || Paused(u.game) ==> PlayControlVisible(u.game)
    ensures Paused(u.game) ==>
      var r := FixedUiStep(u, PlayPause).next.game;
      && r.active == u.game.lastActive && r.timerOwner == u.game.lastActive
      && r.p1Time == u.game.p1Time && r.p2Time == u.game.p2Time
      && r.p1Turns == u.game.p1Turns && r.p2Turns == u.game.p2Turns
  {
  }
}

=== FILE: display.dfy ===
/** The clock face text: `minutes:ss` from the clock value and the move
    counter caption. Swift's `Int(_:)` of a TimeInterval and Int `/` and `%`
    all truncate toward zero, which Dafny's Euclidean operators do not do
    for negative operands, so truncation is written out here. */
module TimeDisplay {
  import opened Wrappers

  function DigitChar(d: int): (c: char)
    requires 0 <= d < 10
    ensures '0' <= c <= '9'
    ensures DigitValue(c) == d
  {
    ('0' as int + d) as char
  }

  function DigitValue(c: char): int
  {
    c as int - '0' as int
  }

  predicate IsDigit(c: char)
  {
    '0' <= c <= '9'
  }

  predicate AllDigits(s: string)
  {
    forall i :: 0 <= i < |s| ==> IsDigit(s[i])
  }

  /** Decimal digits of `n`, most significant first, no leading zero. */
  function NatToString(n: nat): (s: string)
    ensures |s| > 0 && AllDigits(s)
    ensures |s| > 1 ==> s[0] != '0'
    decreases n
  {
    if n < 10 then [DigitChar(n)] else NatToString(n / 10) + [DigitChar(n % 10)]
  }

  /** What `%d` prints for an integer. */
  function IntToString(i: int): string
  {
    if i < 0 then "-" + NatToString(-i) else NatToString(i)
  }

  /** What `%02d` prints: a value of one digit gains a leading zero. */
  function PadTwo(i: int): string
  {
    if 0 <= i < 10 then ['0', DigitChar(i)] else IntToString(i)
  }

  /** Integer division truncating toward zero, as Swift's `/`. */
  function TruncDiv(a: int, b: int): int
    requires b > 0
  {
    if a >= 0 then a / b else -((-a) / b)
  }

  /** Remainder with the sign of the dividend, as Swift's `%`. */
  function TruncMod(a: int, b: int): int
    requires b > 0
  {
    if a >= 0 then a % b else -((-a) % b)
  }

  /** Whole seconds shown for a clock value in tenths: `Int(seconds)`. */
  function WholeSeconds(tenths: int): int
  {
    TruncDiv(tenths, 10)
  }

  function TimeString(tenths: int): string
  {
    var secs := WholeSeconds(tenths);
    IntToString(TruncDiv(secs, 60)) + ":" + PadTwo(TruncMod(secs, 60))
  }

  function MoveCountText(turns: int): string
  {
    if turns == 1 then "1 Move" else IntToString(turns) + " Moves"
  }

  /** The caption is visible only when enabled and at least one move was
      made. */
  predicate MoveCounterVisible(showMoveCounter: bool, turns: int)
  {
    showMoveCounter && turns > 0
  }

  // ---------------------------------------------------------------------
  // Reading the text back

  function ParseNat(s: string): int
    decreases |s|
  {
    if |s| == 0 then 0 else 10 * ParseNat(s[..|s| - 1]) + DigitValue(s[|s| - 1])
  }

  /** Reads `minutes:ss` back as whole seconds. */
  function ParseTime(s: string): Option<int>
  {
    if |s| >= 4 && s[|s| - 3] == ':' && AllDigits(s[..|s| - 3]) && AllDigits(s[|s| - 2..])
       && DigitValue(s[|s| - 2]) < 6
    then Some(60 * ParseNat(s[..|s| - 3]) + ParseNat(s[|s| - 2..]))
    else None
  }

  lemma {:induction false} ParseNatToString(n: nat)
    ensures ParseNat(NatToString(n)) == n
    decreases n
  {
    if n >= 10 {
      var s := NatToString(n);
      assert s[..|s| - 1] == NatToString(n / 10);
      ParseNatToString(n / 10);
    }
  }

  /** The two-digit field of a non-negative clock is exactly two digits
      holding the seconds within the minute. */
  lemma PadTwoSeconds(r: int)
    requires 0 <= r < 60
    ensures |PadTwo(r)| == 2 && AllDigits(PadTwo(r))
    ensures DigitValue(PadTwo(r)[0]) < 6
    ensures ParseNat(PadTwo(r)) == r
  {
    var t := PadTwo(r);
    if r >= 10 {
      assert NatToString(r) == NatToString(r / 10) + [DigitChar(r % 10)];
      assert NatToString(r / 10) == [DigitChar(r / 10)];
    }
    assert t == [DigitChar(r / 10), DigitChar(r % 10)];
    assert t[..1] == [t[0]];
    assert t[..1][..0] == [];
    assert ParseNat(t[..1]) == r / 10;
    assert ParseNat(t) == 10 * ParseNat(t[..1]) + DigitValue(t[1]);
  }

  /** For a clock at or above zero the face shows the minutes, a colon and
      the seconds within the minute as two digits 00 to 59, dropping the
      tenths; reading it back gives the whole seconds. */
  lemma TimeStringRoundTrip(tenths: int)
    requires tenths >= 0
    ensures var t := TimeString(tenths);
      && t == NatToString(tenths / 600) + ":" + PadTwo(tenths / 10 % 60)
      && |PadTwo(tenths / 10 % 60)| == 2
      && ParseTime(t) == Some(tenths / 10)
  {
    var secs := tenths / 10;
    var m := secs / 60;
    var r := secs % 60;
    assert secs / 60 == tenths / 600;
    var t := TimeString(tenths);
    var ms := NatToString(m);
    var rs := PadTwo(r);
    PadTwoSeconds(r);
    ParseNatToString(m);
    assert t == ms + ":" + rs;
    assert t[..|t| - 3] == ms;
    assert t[|t| - 2..] == rs;
    assert t[|t| - 3] == ':';
  }

  /** A clock less than a second below zero
      still reads 0:00, because the conversion truncates toward zero. */
  lemma SlightlyNegativeShowsZero(tenths: int)
    requires -10 < tenths <= 0
    ensures TimeString(tenths) == "0:00"
  {
  }

  /** The caption is singular exactly for one move; otherwise it is the
      count followed by " Moves". */
  lemma MoveCountTextShape(turns: nat)
    ensures turns == 1 <==> MoveCountText(turns) == "1 Move"
    ensures turns != 1 ==> MoveCountText(turns) == NatToString(turns) + " Moves"
    ensures turns != 1 ==> ParseNat(MoveCountText(turns)[..|MoveCountText(turns)| - 6]) == turns
  {
    if turns != 1 {
      var t := MoveCountText(turns);
      assert t[..|t| - 6] == NatToString(turns);
      ParseNatToString(turns);
      assert t[|t| - 1] == 's';
    }
  }
}

=== FILE: engine.dfy ===
/** The chess-clock engine: two countdown clocks, two move counters, the
    active and last-active player, the game-over flag and the single
    repeating timer. Clock values are integer tenths of a second. The
    Foundation timer is the field `timerOwner`: the player whose clock the
    timer's closure decrements, or None when no timer is scheduled. */
module ClockEngine {
  import opened Wrappers
  import opened TimeControl

  datatype Player = One | Two

  function Other(p: Player): (q: Player)
    ensures q != p
  {
    if p == One then Two else One
  }

  /** The thirteen built-in time controls, in picker order. */
  const Presets: seq<Preset> := [
    Preset("1 min", 1, 0),
    Preset("1 min | 1 sec", 1, 1),
    Preset("2 min | 1 sec", 2, 1),
    Preset("3 min", 3, 0),
    Preset("3 min | 2 sec", 3, 2),
    Preset("5 min", 5, 0),
    Preset("5 min | 3 sec", 5, 3),
    Preset("10 min", 10, 0),
    Preset("10 min | 5 sec", 10, 5),
    Preset("15 min | 5 sec", 15, 5),
    Preset("30 min", 30, 0),
    Preset("30 min | 10 sec", 30, 10),
    Preset("60 min | 30 sec", 60, 30)
  ]

  /** An index the preset picker can produce. */
  type PresetIndex = i: int | 0 <= i < 13

  const DefaultPresetIndex: PresetIndex := 9

  datatype State = State(
    presetIndex: PresetIndex,
    p1Time: int,
    p2Time: int,
    p1Turns: int,
    p2Turns: int,
    active: Option<Player>,
    lastActive: Option<Player>,
    gameOver: bool,
    timerOwner: Option<Player>,
    soundEnabled: bool)

  /** The result of a command: the next state and the feedback cue it plays,
      if any (the audio click for that player's channel). */
  datatype Effect = Effect(next: State, cue: Option<Player>)

  /** The state the engine is created in: the default preset, 900 seconds on
      both clocks, nobody active, sound on. */
  const Init: State := State(DefaultPresetIndex, 9000, 9000, 0, 0, None, None, false, None, true)

  function CurrentPreset(s: State): Preset
  {
    Presets[s.presetIndex]
  }

  function Clock(s: State, p: Player): int
  {
    if p == One then s.p1Time else s.p2Time
  }

  function Turns(s: State, p: Player): int
  {
    if p == One then s.p1Turns else s.p2Turns
  }

  /** True once either clock differs from the preset's starting time. This is
      not "a clock is running": right after the first switch a timer runs
      before its first tick (see StartedGameNotInProgress). In integer
      tenths an increment can also refund the elapsed ticks exactly and make
      this false in mid-game, which the source's Double clocks never do. */
  predicate IsGameInProgress(s: State)
  {
    s.p1Time != InitialTenths(CurrentPreset(s)) || s.p2Time != InitialTenths(CurrentPreset(s))
  }

  /** The feedback cue for `p`: nothing when sound is disabled. */
  function Feedback(s: State, p: Player): (cue: Option<Player>)
    ensures cue.Some? <==> s.soundEnabled
    ensures cue.Some? ==> cue.value == p
  {
    if s.soundEnabled then Some(p) else None
  }

  /** Sets the clock of `p`, leaving everything else alone. */
  function WithClock(s: State, p: Player, t: int): (r: State)
    ensures Clock(r, p) == t
    ensures Clock(r, Other(p)) == Clock(s, Other(p))
    ensures r.(p1Time := s.p1Time, p2Time := s.p2Time) == s
  {
    if p == One then s.(p1Time := t) else s.(p2Time := t)
  }

  /** Credits the player who just finished a move: one increment of time and
      one move on their counter. */
  function Credit(s: State, p: Player): (r: State)
    ensures Clock(r, p) == Clock(s, p) + IncrementTenths(CurrentPreset(s))
    ensures Turns(r, p) == Turns(s, p) + 1
    ensures Clock(r, Other(p)) == Clock(s, Other(p))
    ensures Turns(r, Other(p)) == Turns(s, Other(p))
    ensures r.(p1Time := s.p1Time, p2Time := s.p2Time, p1Turns := s.p1Turns, p2Turns := s.p2Turns) == s
  {
    var inc := IncrementTenths(CurrentPreset(s));
    if p == One then s.(p1Time := s.p1Time + inc, p1Turns := s.p1Turns + 1)
    else s.(p2Time := s.p2Time + inc, p2Turns := s.p2Turns + 1)
  }

  /** Hands the clock to `p`. The previously active player, if any, is
      credited; the old timer is replaced by one bound to `p`. There is no
      guard: switching to the player already active credits them too. */
  function SwitchToPlayer(s: State, p: Player): (r: Effect)
    ensures r.cue == Feedback(s, p)
    ensures r.next.active == Some(p) && r.next.lastActive == Some(p)
    ensures r.next.timerOwner == Some(p)
    ensures s.active.None? ==>
      r.next == s.(active := Some(p), lastActive := Some(p), timerOwner := Some(p))
    ensures s.active.Some? ==>
      var q := s.active.value;
      && Clock(r.next, q) == Clock(s, q) + IncrementTenths(CurrentPreset(s))
      && Turns(r.next, q) == Turns(s, q) + 1
      && Clock(r.next, Other(q)) == Clock(s, Other(q))
      && Turns(r.next, Other(q)) == Turns(s, Other(q))
    ensures r.next.presetIndex == s.presetIndex && r.next.gameOver == s.gameOver
    ensures r.next.soundEnabled == s.soundEnabled
  {
    var credited := if s.active.Some? then Credit(s, s.active.value) else s;
    Effect(credited.(active := Some(p), timerOwner := Some(p), lastActive := Some(p)), Feedback(s, p))
  }

  /** Stops the timer and marks the game over. The active player is kept. */
  function EndGame(s: State): (r: State)
    ensures r.gameOver && r.timerOwner.None?
    ensures r.active == s.active && r.lastActive == s.lastActive
    ensures r.p1Time == s.p1Time && r.p2Time == s.p2Time
    ensures r.p1Turns == s.p1Turns && r.p2Turns == s.p2Turns
    ensures r.presetIndex == s.presetIndex && r.soundEnabled == s.soundEnabled
  {
    s.(timerOwner := None, gameOver := true)
  }

  /** One firing of the repeating timer: a tenth of a second off the clock
      of the player the timer was started for; the game ends when that clock
      reaches zero or below. Without a timer nothing happens. */
  function Tick(s: State): (r: State)
    ensures s.timerOwner.None? ==> r == s
    ensures s.timerOwner.Some? ==>
      var p := s.timerOwner.value;
      && Clock(r, p) == Clock(s, p) - 1
      && Clock(r, Other(p)) == Clock(s, Other(p))
      && (r.gameOver <==> s.gameOver || Clock(s, p) <= 1)
      && (r.timerOwner.None? <==> Clock(s, p) <= 1)
      && (Clock(s, p) > 1 ==> r.timerOwner == s.timerOwner)
    ensures r.active == s.active && r.lastActive == s.lastActive
    ensures r.p1Turns == s.p1Turns && r.p2Turns == s.p2Turns
    ensures r.presetIndex == s.presetIndex && r.soundEnabled == s.soundEnabled
  {
    match s.timerOwner
    case None => s
    case Some(p) =>
      var d := WithClock(s, p, Clock(s, p) - 1);
      if Clock(d, p) <= 0 then EndGame(d) else d
  }

  /** Stops the clock. The active player is remembered for resuming, and the
      feedback cue always uses player one's channel. */
  function PauseGame(s: State): (r: Effect)
    ensures r.next.lastActive == s.active
    ensures r.next.active.None? && r.next.timerOwner.None?
    ensures r.next.p1Time == s.p1Time && r.next.p2Time == s.p2Time
    ensures r.next.p1Turns == s.p1Turns && r.next.p2Turns == s.p2Turns
    ensures r.next.gameOver == s.gameOver && r.next.presetIndex == s.presetIndex
    ensures r.next.soundEnabled == s.soundEnabled
    ensures r.cue == Feedback(s, One)
  {
    Effect(s.(lastActive := s.active, timerOwner := None, active := None), Feedback(s, One))
  }

  /** Back to the start of a game under the current preset. */
  function ResetGame(s: State): (r: State)
    ensures r.p1Time == InitialTenths(CurrentPreset(s)) && r.p2Time == InitialTenths(CurrentPreset(s))
    ensures r.p1Turns == 0 && r.p2Turns == 0
    ensures r.active.None? && r.lastActive.None? && r.timerOwner.None? && !r.gameOver
    ensures r.presetIndex == s.presetIndex && r.soundEnabled == s.soundEnabled
  {
    var t := InitialTenths(CurrentPreset(s));
    s.(p1Time := t, p2Time := t, p1Turns := 0, p2Turns := 0,
       active := None, lastActive := None, timerOwner := None, gameOver := false)
  }

  /** Picks another preset and resets under it: the only way the preset
      index changes (both picker paths set the index, then reset). */
  function SelectPreset(s: State, i: PresetIndex): (r: State)
    ensures r.presetIndex == i
    ensures r.p1Time == InitialTenths(Presets[i]) && r.p2Time == InitialTenths(Presets[i])
    ensures r.p1Turns == 0 && r.p2Turns == 0
    ensures r.active.None? && r.lastActive.None? && r.timerOwner.None? && !r.gameOver
    ensures r.soundEnabled == s.soundEnabled
    ensures !IsGameInProgress(r)
  {
    ResetGame(s.(presetIndex := i))
  }

  /** The shape every state the commands produce keeps: a timer only ever
      runs for the active player, a running player is also the last active
      one, and an active player without a timer means the game ended. */
  predicate Inv(s: State)
  {
    && (s.timerOwner.Some? ==> s.timerOwner == s.active)
    && (s.active.Some? ==> s.lastActive == s.active)
    && (s.active.Some? && s.timerOwner.None? ==> s.gameOver)
  }

  // ---------------------------------------------------------------------
  // Properties of single commands

  /** The default preset is "15 min | 5 sec", whose starting time is the
      900 seconds both clocks are created with; the fresh engine is not in
      progress, nobody is active and the game is not over. */
  lemma InitIsConsistent()
    ensures CurrentPreset(Init).name == "15 min | 5 sec"
    ensures CurrentPreset(Init).minutes == 15 && CurrentPreset(Init).increment == 5
    ensures InitialSeconds(CurrentPreset(Init)) == 900
    ensures Init.p1Time == InitialTenths(CurrentPreset(Init)) == Init.p2Time
    ensures !IsGameInProgress(Init)
    ensures Init.active.None? && Init.lastActive.None? && !Init.gameOver && Init.timerOwner.None?
    ensures Inv(Init)
    ensures ResetGame(Init) == Init
  {
  }

  /** Resetting twice is resetting once, and a reset game is not in
      progress. */
  lemma ResetIdempotent(s: State)
    ensures ResetGame(ResetGame(s)) == ResetGame(s)
    ensures !IsGameInProgress(ResetGame(s))
    ensures Inv(ResetGame(s))
  {
  }

  /** Pausing and then pressing play (which switches to the last active
      player, or player one when there is none) restores the running player
      and the timer without crediting any increment or move. */
  lemma PauseThenResume(s: State, p: Player)
    requires s.active == Some(p)
    ensures var paused := PauseGame(s).next;
      var resumed := SwitchToPlayer(paused, paused.lastActive.GetOr(One)).next;
      && resumed.active == Some(p) && resumed.timerOwner == Some(p)
      && resumed.p1Time == s.p1Time && resumed.p2Time == s.p2Time
      && resumed.p1Turns == s.p1Turns && resumed.p2Turns == s.p2Turns
  {
  }

  /** Switching to the player who already runs credits them an increment
      and a move: the engine itself has no guard against it. */
  lemma SwitchToSelfCredits(s: State, p: Player)
    requires s.active == Some(p)
    ensures Turns(SwitchToPlayer(s, p).next, p) == Turns(s, p) + 1
    ensures Clock(SwitchToPlayer(s, p).next, p) == Clock(s, p) + IncrementTenths(CurrentPreset(s))
  {
  }

  /** The tick that takes a positive clock to zero ends the game; as the
      clocks move by whole tenths it ends exactly at zero. The active player
      is not cleared. */
  lemma TickEndsGameAtZero(s: State, p: Player)
    requires s.timerOwner == Some(p) && Clock(s, p) == 1
    ensures Tick(s).gameOver && Tick(s).timerOwner.None?
    ensures Clock(Tick(s), p) == 0
    ensures Tick(s).active == s.active
  {
  }

  /** "In progress" is not "running": right after the first switch a
      timer runs, but until its first tick both clocks still hold the
      starting time. */
  lemma StartedGameNotInProgress(s: State, p: Player)
    requires s.active.None? && !IsGameInProgress(s)
    ensures var r := SwitchToPlayer(s, p).next;
      && r.timerOwner == Some(p)
      && !IsGameInProgress(r)
      && IsGameInProgress(Tick(r))
  {
    var r := SwitchToPlayer(s, p).next;
    assert Clock(Tick(r), p) == Clock(s, p) - 1;
  }
}

=== FILE: preset.dfy ===
/** A time control: a named pair of starting minutes and a per-move increment
    in whole seconds. Clock values elsewhere in the model are integer tenths
    of a second, so this module also gives both quantities in tenths. */
module TimeControl {

  datatype Preset = Preset(name: string, minutes: int, increment: int)

  /** Starting time of one clock, in seconds. */
  function InitialSeconds(p: Preset): int
  {
    p.minutes * 60
  }

  /** Starting time of one clock, in tenths of a second. */
  function InitialTenths(p: Preset): int
  {
    InitialSeconds(p) * 10
  }

  /** Time credited after a completed move, in tenths of a second. */
  function IncrementTenths(p: Preset): int
  {
    p.increment * 10
  }

  /** The starting time depends on the minutes alone, not on the name or
      the increment. */
  lemma InitialSecondsIgnoresNameAndIncrement(p: Preset, q: Preset)
    requires p.minutes == q.minutes
    ensures InitialSeconds(p) == InitialSeconds(q)
    ensures InitialTenths(p) == InitialTenths(q)
  {
  }

  /** A non-negative number of minutes gives a non-negative whole number of
      minutes' worth of seconds. */
  lemma InitialSecondsWholeMinutes(p: Preset)
    requires p.minutes >= 0
    ensures InitialSeconds(p) >= 0
    ensures InitialSeconds(p) % 60 == 0
    ensures InitialSeconds(p) / 60 == p.minutes
  {
  }

  /** More minutes always means strictly more starting time. */
  lemma InitialSecondsStrictlyIncreasing(p: Preset, q: Preset)
    requires p.minutes < q.minutes
    ensures InitialSeconds(p) < InitialSeconds(q)
    ensures InitialTenths(p) < InitialTenths(q)
  {
  }
}

=== FILE: timeline.dfy ===
/** Sequences of engine commands and timer firings, and the properties that
    hold over whole runs: the time accounting, the shape invariant, the
    silence of a muted engine and the stillness after the game ends. */
module Timeline {
  import opened Wrappers
  import opened TimeControl
  import opened ClockEngine

  datatype Command = Switch(to: Player) | Pause | Reset | Select(index: PresetIndex) | TimerFired

  function Apply(s: State, c: Command): (r: Effect)
    ensures c.Reset? || c.TimerFired? || c.Select? ==> r.cue.None?
    ensures r.next.soundEnabled == s.soundEnabled
  {
    match c
    case Switch(p) => SwitchToPlayer(s, p)
    case Pause => PauseGame(s)
    case Reset => Effect(ResetGame(s), None)
    case Select(i) => Effect(SelectPreset(s, i), None)
    case TimerFired => Effect(Tick(s), None)
  }

  function Run(s: State, cmds: seq<Command>): State
    decreases |cmds|
  {
    if |cmds| == 0 then s else Run(Apply(s, cmds[0]).next, cmds[1..])
  }

  /** The feedback cues a run plays, in order. */
  function Cues(s: State, cmds: seq<Command>): seq<Player>
    decreases |cmds|
  {
    if |cmds| == 0 then []
    else
      var e := Apply(s, cmds[0]);
      (if e.cue.Some? then [e.cue.value] else []) + Cues(e.next, cmds[1..])
  }

  /** Tenths of a second each player's timer has taken off their clock since
      the last reset. */
  datatype Burn = Burn(one: nat, two: nat)

  function Spent(b: Burn, p: Player): nat
  {
    if p == One then b.one else b.two
  }

  function Charge(s: State, c: Command, b: Burn): Burn
  {
    match c
    case Reset => Burn(0, 0)
    case Select(_) => Burn(0, 0)
    case TimerFired =>
      if s.timerOwner == Some(One) then b.(one := b.one + 1)
      else if s.timerOwner == Some(Two) then b.(two := b.two + 1)
      else b
    case _ => b
  }

  function Burned(s: State, cmds: seq<Command>, b: Burn): Burn
    decreases |cmds|
  {
    if |cmds| == 0 then b else Burned(Apply(s, cmds[0]).next, cmds[1..], Charge(s, cmds[0], b))
  }

  /** Each clock holds the starting time, plus one increment per completed
      move, minus the ticks its timer has fired. */
  predicate Accounted(s: State, b: Burn)
  {
    forall p: Player :: Clock(s, p) ==
      InitialTenths(CurrentPreset(s)) + IncrementTenths(CurrentPreset(s)) * Turns(s, p) - Spent(b, p)
  }

  lemma CreditAccounted(s: State, q: Player, b: Burn)
    requires Accounted(s, b)
    ensures Accounted(Credit(s, q), b)
  {
    var inc := IncrementTenths(CurrentPreset(s));
    assert inc * (Turns(s, q) + 1) == inc * Turns(s, q) + inc;
    var r := Credit(s, q);
    forall p: Player
      ensures Clock(r, p) ==
        InitialTenths(CurrentPreset(r)) + IncrementTenths(CurrentPreset(r)) * Turns(r, p) - Spent(b, p)
    {
      if p == q {
      } else {
        assert p == Other(q);
      }
    }
  }

  lemma TickAccounted(s: State, b: Burn)
    requires Accounted(s, b)
    ensures Accounted(Tick(s), Charge(s, TimerFired, b))
  {
    var r := Tick(s);
    var b' := Charge(s, TimerFired, b);
    forall p: Player
      ensures Clock(r, p) ==
        InitialTenths(CurrentPreset(r)) + IncrementTenths(CurrentPreset(r)) * Turns(r, p) - Spent(b', p)
    {
      if s.timerOwner.Some? && p != s.timerOwner.value {
        assert p == Other(s.timerOwner.value);
      }
    }
  }

  /** One command keeps the accounting, with the burn charged for it. */
  lemma ApplyAccounted(s: State, c: Command, b: Burn)
    requires Accounted(s, b)
    ensures Accounted(Apply(s, c).next, Charge(s, c, b))
  {
    match c
    case Switch(p) =>
      if s.active.Some? {
        CreditAccounted(s, s.active.value, b);
      }
    case Pause =>
    case Reset =>
    case Select(i) =>
    case TimerFired =>
      TickAccounted(s, b);
  }

  /** The accounting holds after any run. */
  lemma {:induction false} RunAccounted(s: State, cmds: seq<Command>, b: Burn)
    requires Accounted(s, b)
    ensures Accounted(Run(s, cmds), Burned(s, cmds, b))
    decreases |cmds|
  {
    if |cmds| > 0 {
      ApplyAccounted(s, cmds[0], b);
      RunAccounted(Apply(s, cmds[0]).next, cmds[1..], Charge(s, cmds[0], b));
    }
  }

  /** From the fresh engine, whatever happens, the two clocks together hold
      twice the starting time plus one increment per completed move minus
      every tick fired since the last reset. */
  lemma TimeIsConserved(cmds: seq<Command>)
    ensures var s := Run(Init, cmds);
      var b := Burned(Init, cmds, Burn(0, 0));
      var pre := CurrentPreset(s);
      s.p1Time + s.p2Time ==
        2 * InitialTenths(pre) + IncrementTenths(pre) * (s.p1Turns + s.p2Turns) - (b.one + b.two)
  {
    InitIsConsistent();
    assert Accounted(Init, Burn(0, 0)) by {
      forall p: Player
        ensures Clock(Init, p) ==
          InitialTenths(CurrentPreset(Init)) + IncrementTenths(CurrentPreset(Init)) * Turns(Init, p) - Spent(Burn(0, 0), p)
      {
      }
    }
    RunAccounted(Init, cmds, Burn(0, 0));
    var s := Run(Init, cmds);
    var b := Burned(Init, cmds, Burn(0, 0));
    var pre := CurrentPreset(s);
    assert Clock(s, One) == InitialTenths(pre) + IncrementTenths(pre) * s.p1Turns - b.one;
    assert Clock(s, Two) == InitialTenths(pre) + IncrementTenths(pre) * s.p2Turns - b.two;
  }

  /** Every command keeps the shape invariant. */
  lemma ApplyKeepsInv(s: State, c: Command)
    requires Inv(s)
    ensures Inv(Apply(s, c).next)
  {
  }

  lemma {:induction false} RunKeepsInv(s: State, cmds: seq<Command>)
    requires Inv(s)
    ensures Inv(Run(s, cmds))
    decreases |cmds|
  {
    if |cmds| > 0 {
      ApplyKeepsInv(s, cmds[0]);
      RunKeepsInv(Apply(s, cmds[0]).next, cmds[1..]);
    }
  }

  /** A muted engine plays no cue, whatever the commands. */
  lemma {:induction false} MutedRunIsSilent(s: State, cmds: seq<Command>)
    requires !s.soundEnabled
    ensures Cues(s, cmds) == []
    decreases |cmds|
  {
    if |cmds| > 0 {
      MutedRunIsSilent(Apply(s, cmds[0]).next, cmds[1..]);
    }
  }

  /** With sound on, a switch plays its target's cue and a pause plays
      player one's, each exactly once. */
  lemma CueOfCommand(s: State, c: Command)
    requires s.soundEnabled
    ensures c.Switch? ==> Cues(s, [c]) == [c.to]
    ensures c.Pause? ==> Cues(s, [c]) == [One]
    ensures !c.Switch? && !c.Pause? ==> Cues(s, [c]) == []
  {
    assert [c][1..] == [];
  }

  function Ticks(n: nat): (r: seq<Command>)
    ensures |r| == n
    ensures forall i :: 0 <= i < n ==> r[i] == TimerFired
  {
    seq(n, _ => TimerFired)
  }

  /** Once the timer is gone, as after the ending tick, any number of
      further ticks leaves the state, and so both clocks, unchanged. */
  lemma {:induction false} TicksWithoutTimerAreInert(s: State, n: nat)
    requires s.timerOwner.None?
    ensures Run(s, Ticks(n)) == s
    ensures Burned(s, Ticks(n), Burn(0, 0)) == Burn(0, 0)
    decreases n
  {
    if n > 0 {
      assert Ticks(n)[1..] == Ticks(n - 1);
      TicksWithoutTimerAreInert(s, n - 1);
    }
  }

  /** The tick that ends the game stops every later tick from touching a
      clock, and leaves the active player in place. */
  lemma GameOverFreezesClocks(s: State, p: Player, n: nat)
    requires s.timerOwner == Some(p) && Clock(s, p) == 1
    ensures var over := Tick(s);
      && over.gameOver && over.active == s.active
      && Run(over, Ticks(n)) == over
  {
    TickEndsGameAtZero(s, p);
    TicksWithoutTimerAreInert(Tick(s), n);
  }
}

=== FILE: wrappers.dfy ===
/** The optional-value datatype the clock model uses for "no player" and
    "no pending preset". */
module Wrappers {

  datatype Option<+T> = None | Some(value: T) {

    /** Returns the value in Some, or `default` for None (Swift's `??`). */
    function GetOr(default: T): (r: T)
      ensures Some? ==> r == value
      ensures None? ==> r == default
    {
      match this
      case Some(v) => v
      case None => default
    }
  }
}
